=== FILE: README.md ===
# Value-investing checklist: scoreboard model

A Dafny model of the decision logic of the "Active Value Investor – Checklist App"
page (`app.py`): the guarded ratio helper `safe_ratio`, the eleven checklist
entries the page appends to its results list, the scoreboard loop that turns each
entry's `passed` value into a success, failure or warning mark and counts the
successes, and the three verdict bands.

Each entry is a Python triple `(label, value, passed)`. The `passed` element comes
from an expression such as `roe and roe > 0.12`, so it is whatever Python's `and`
returns: the left operand when that is falsy (`None`, `0`), the comparison
otherwise. The scoreboard then tests `passed is True` and `passed is False`, which
only the builtin boolean singletons satisfy. The model therefore represents Python
values explicitly (`PyValues.Value`: `None`, booleans, numbers, strings), and tags
every number and boolean with its `ScalarKind`: a builtin Python object, or a NumPy
scalar as pandas may hand back from `.iloc[0]`, `.mean()` and `.min()`. A comparison
of a NumPy scalar yields a `numpy.bool_`, which is never `is True`. The kind of the
pandas-derived inputs is a parameter of `Checklist.Fundamentals`, and the model
proves what the page shows in both cases.

Modules (one file each):

- `Wrappers` (`wrappers.dfy`): `Option`, for data the provider may not supply.
- `PyValues` (`py_values.dfy`): Python values, truthiness, identity with `True`/`False`.
  The predicates `Truthy`, `IsTrue` and `IsFalse` and the function `Promote` are
  definitions of Python and NumPy semantics (the truthiness behind `and`, the
  `is True`/`is False` tests used at app.py lines 36, 79, 93 and 96, and the rule that
  arithmetic with a NumPy operand yields a NumPy scalar), not models of particular
  lines, so they have no row of their own; `SafeRatio` states the kind of its result.
- `Rounding` (`rounding.dfy`): `round(x, 2)` on exact reals.
- `Outcomes` (`outcomes.dfy`): the three marks of the scoreboard.
- `Checklist` (`checklist.dfy`): the provider data, `safe_ratio` and the eleven entries.
- `Scoreboard` (`scoreboard.dfy`): the score loop, the verdict bands and the facts
  about which scores and verdicts can occur.

Main facts proved:

- A profile ratio (ROE, ROA, net margin, gross margin) is neutral when it is missing
  or exactly zero, passes only when strictly above its threshold, and fails at the
  threshold itself.
- The debt check is neutral when a line item is missing, when net income is zero, or
  when the rounded ratio is 0.00. For builtin numbers, a ratio of exactly 5 fails and any
  ratio whose rounded value is non-zero and below 5 passes, negative ratios included. With NumPy
  line items the debt check is always neutral.
- Dividend consistency is always a boolean. It is true exactly when at least one
  payment exists and every payment is positive. An empty history fails.
- The four manual items are always neutral.
- The score is the number of entries whose `passed` is `True`. The total is always 11, and
  the score is the number of the seven automated checks that pass. So the score is at
  most 7, "Strong Candidate" (score >= 10) is unreachable, and "Watchlist" is shown
  exactly when all seven automated checks pass.
- If pandas hands back NumPy scalars, the EPS, debt and dividend checks never pass. The
  score is then at most 4 and the verdict is always "Avoid".

## Model

| member | source | states |
|---|---|---|
| Outcomes.Classify | app.py:93-99 | a success mark implies a truthy value, a failure mark a falsy one, and the warning mark is shown exactly for values that are not builtin booleans (None, numbers, strings, NumPy booleans) |
| Rounding.RoundHalfEven | app.py:28 | the chosen integer is within one half of its argument, and a tie goes to the even integer |
| Rounding.Round2 | app.py:28 | `round(x, 2)` lands on a whole number of hundredths no farther than 0.005 from `x` |
| Rounding.Round2Exact | app.py:28 | a value that already has two decimals (such as 5) is returned unchanged |
| Rounding.Round2Zero | app.py:28 | the rounded ratio is 0 strictly inside (-0.005, 0.005) and non-zero strictly outside it |
| Checklist.GuardedCompare | app.py:36 | the short-circuit `v and v > t` (or `< t`) shows the warning mark exactly when `v` is falsy (None, zero) or a NumPy number; it passes exactly for a truthy builtin number strictly on the passing side of the threshold, and fails for one on the other side or equal to it |
| Checklist.SafeRatio | app.py:26-30 | `None` exactly when the denominator is zero, otherwise a number of hundredths within 0.005 of the quotient, NumPy-kinded if either operand is |
| Checklist.ProfileEntry | app.py:34-56 | for ROE, ROA, net and gross margin: Pass iff present, non-zero and strictly above the threshold; Fail iff present, non-zero and at or below it; Neutral iff missing or zero |
| Checklist.EpsEntry | app.py:42-48 | no earnings column gives `None` for value and result; Pass iff the builtin mean growth is positive, Fail iff it is negative |
| Checklist.DebtEntry | app.py:58-65 | a missing line item is neutral; the value is `safe_ratio(debt, net income)`; Pass iff both are builtin, net income is non-zero and the rounded ratio is non-zero and below 5; Fail iff the same but the rounded ratio is at least 5; NumPy line items are always neutral |
| Checklist.DebtBoundaries | app.py:58-65 | for builtin line items: zero net income, zero debt and ratios inside (-0.005, 0.005) are neutral; a ratio of exactly 5 or above 4.995 fails; a ratio below -0.005 or in (0.005, 4.995) passes |
| Checklist.ManualEntry | app.py:67-82 | a manual placeholder is falsy and always neutral |
| Checklist.SeqMin | app.py:78 | `dividends.min()` is one of the payments and no payment is smaller |
| Checklist.DividendConsistent | app.py:77-78 | the result is always a boolean; it is true iff the history is non-empty and every payment is positive; an empty history gives the builtin `False` |
| Checklist.DividendEntry | app.py:76-79 | the result is `DividendConsistent` of the history and the value shown is "Yes"/"No" by it; Pass iff builtin scalars, non-empty and all payments positive; Fail iff the history is empty or is builtin with some payment at or below zero; Neutral iff the history is non-empty and NumPy |
| Checklist.Results | app.py:32-82 | the page appends exactly 11 entries, and the manual ones (positions 7, 8, 9 and 11) are neutral |
| Scoreboard.Point | app.py:93-95 | an entry adds one to the score exactly when it shows the success mark |
| Scoreboard.Passes | app.py:86-95 | the count never exceeds the number of entries, and equals it iff every entry passes |
| Scoreboard.Tally | app.py:86-99 | the loop's total is the list length and its score is the number of passing entries, never above the total |
| Scoreboard.VerdictOf | app.py:103-108 | "Strong Candidate" exactly for scores of at least 10, "Watchlist" exactly for 7 to 9, "Avoid" exactly below 7 |
| Scoreboard.VerdictMonotone | app.py:103-108 | a higher score never gives a lower verdict |
| Scoreboard.ScoreIsAutomatedPasses | app.py:34-95 | the page's score equals the number of passing automated checks; the manual entries never count |
| Scoreboard.ScoreAtMostSeven | app.py:34-95 | the total is 11 and the score is at most 7 |
| Scoreboard.StrongCandidateUnreachable | app.py:103-104 | no data makes the page show "Strong Candidate" |
| Scoreboard.WatchlistIffAllAutomatedPass | app.py:103-106 | "Watchlist" is shown iff all seven automated checks pass |
| Scoreboard.WatchlistIffInputs | app.py:34-106 | "Watchlist" is shown iff ROE and ROA are present and above 0.12, net margin above 0.20, gross margin above 0.40, the builtin EPS growth is positive, the builtin rounded debt ratio is non-zero and below 5, and the builtin dividend history is non-empty and all positive |
| Scoreboard.NumPyScalarsAlwaysAvoid | app.py:46-108 | with NumPy scalars from pandas, the score is at most 4 and the verdict is "Avoid" |

## Left out

- Streamlit calls (`st.*`), column layout, the price chart and the "—" placeholder shown for a `None` value: presentation only.
- The market-data fetch (`yf.Ticker`, `.info`, `.history`, `.financials`, `.balance_sheet`, `.cashflow`, `.dividends`, `.earnings`): external network I/O. Its results are the inputs of `Checklist.Fundamentals`.
- pandas computations (`.loc[...].iloc[0]`, `pct_change().mean()`, `.empty`, the `"Earnings" in eps_hist` test): their results are given as optional numbers, with a `ScalarKind` tagging whether they are builtin or NumPy scalars. A failing `.loc`/`.iloc` lookup is a missing `longTermDebt` or `netIncome`.
- Rounding.Round2: works on exact reals and breaks ties to even. Binary floating-point representation error is not modelled, so the lemmas about the debt check state only strict inequalities, and those hold whatever the tie rule.
- NaN and infinities: float-specific. For example, a NaN mean growth is truthy and compares false. The model's numbers are reals.
- The `except` branch of `safe_ratio`: the division of two numbers with a non-zero denominator cannot raise on reals, so the branch is unreachable in the model.
- The outer `try/except` that reports a fetch error (lines 110-111): error plumbing around the whole page.
- The displayed `value` of the numeric entries is the raw number or rounded ratio, and is not given a contract beyond the debt and dividend entries.
- Per-fiscal-year trends and configurable verdict cut points: `app.py` has neither. It reads single profile attributes and the first column of each line item, and it hard-codes the cut points 10 and 7; the model does the same.

=== FILE: checklist.dfy ===
/**
 The eleven checklist entries of app.py (lines 26-82). Each entry is a triple
 (label, displayed value, passed), where `passed` is whatever Python value the
 guarded comparison `x and x > threshold` evaluates to.
 */
module Checklist {
  import opened Wrappers
  import opened PyValues
  import opened Rounding
  import opened Outcomes

  /** The provider data the checklist reads, already fetched.
      The four profile ratios come from `info.get(key, None)` and are builtin
      numbers. `epsGrowth` is the mean percentage change of the earnings column,
      `None` when the earnings table is empty or has no "Earnings" column.
      `longTermDebt` and `netIncome` are the first column of the named line item,
      `None` when the lookup raises (row absent, table without columns).
      `dividends` is the series of dividend payments, whose scalars have kind
      `dividendKind`. */
  datatype Fundamentals = Fundamentals(
    returnOnEquity: Option<real>,
    returnOnAssets: Option<real>,
    epsGrowth: Option<Scalar>,
    netMargins: Option<real>,
    grossMargins: Option<real>,
    longTermDebt: Option<Scalar>,
    netIncome: Option<Scalar>,
    dividends: seq<real>,
    dividendKind: ScalarKind)

  /** One row of the results list: (label, value, passed). */
  datatype Entry = Entry(item: string, value: Value, passed: Value)

  /** Which side of the threshold passes. */
  datatype Direction = Above | Below

  /** The warning sign shown as the value of a manual item. */
  const Warning: string := "\U{26A0}\U{FE0F}"

  /** Number of entries the page appends. */
  const EntryCount: nat := 11

  /** `v and v > threshold` (or `v and v < threshold`): Python's `and` returns
      its left operand when that is falsy and the comparison otherwise. */
  function GuardedCompare(v: Value, threshold: real, dir: Direction): (passed: Value)
    requires v.NoneValue? || v.Number?
    ensures !Truthy(v) ==> passed == v
    ensures Truthy(v) ==> passed.Bool? && passed.kind == v.kind
    ensures Truthy(v) && dir == Above ==> (passed.b <==> v.x > threshold)
    ensures Truthy(v) && dir == Below ==> (passed.b <==> v.x < threshold)
    // the scoreboard outcome: falsy operands and NumPy comparisons are neutral
    ensures Classify(passed) == Neutral <==> !Truthy(v) || v.kind == NumPy
    ensures Classify(passed) == Pass <==>
      Truthy(v) && v.kind == Native && (if dir == Above then v.x > threshold else v.x < threshold)
    ensures Classify(passed) == Fail <==>
      Truthy(v) && v.kind == Native && !(if dir == Above then v.x > threshold else v.x < threshold)
  {
    if !Truthy(v) then v
    else match dir
      case Above => Bool(v.x > threshold, v.kind)
      case Below => Bool(v.x < threshold, v.kind)
  }

  /** `safe_ratio`: the quotient rounded to two decimals, or `None` for a zero
      denominator. The `except` branch cannot be reached with numeric operands. */
  function SafeRatio(numerator: Scalar, denominator: Scalar): (r: Value)
    ensures r == NoneValue <==> denominator.x == 0.0
    ensures r != NoneValue ==> r.Number? && r.kind == Promote(numerator.kind, denominator.kind)
    ensures r != NoneValue ==> IsHundredths(r.x)
    ensures r != NoneValue ==>
      numerator.x / denominator.x - 0.005 <= r.x <= numerator.x / denominator.x + 0.005
  {
    if denominator.x != 0.0 then
      Number(Round2(numerator.x / denominator.x), Promote(numerator.kind, denominator.kind))
    else NoneValue
  }

  /** A profile ratio compared strictly above a threshold (entries 1, 2, 4, 5).
      Missing and zero values are neutral; a non-zero value passes only when it is
      strictly greater than the threshold, so a value equal to it fails. */
  function ProfileEntry(item: string, o: Option<real>, threshold: real): (e: Entry)
    ensures e.item == item
    ensures Classify(e.passed) == Pass <==> o.Some? && o.value != 0.0 && o.value > threshold
    ensures Classify(e.passed) == Fail <==> o.Some? && o.value != 0.0 && o.value <= threshold
    ensures Classify(e.passed) == Neutral <==> o.None? || o.value == 0.0
  {
    // `info.get(key, None)` yields None or a builtin number
    var v := match o case None => NoneValue case Some(x) => Number(x, Native);
    Entry(item, v, GuardedCompare(v, threshold, Above))
  }

  /** Entry 3: positive mean earnings growth. */
  function EpsEntry(f: Fundamentals): (e: Entry)
    ensures f.epsGrowth.None? ==> e.value == NoneValue && e.passed == NoneValue
    ensures Classify(e.passed) == Pass <==>
      f.epsGrowth.Some? && f.epsGrowth.value.kind == Native && f.epsGrowth.value.x > 0.0
    ensures Classify(e.passed) == Fail <==>
      f.epsGrowth.Some? && f.epsGrowth.value.kind == Native && f.epsGrowth.value.x < 0.0
  {
    var item := "EPS Trend Positive";
    match f.epsGrowth
    case None => Entry(item, NoneValue, NoneValue)
    case Some(g) => Entry(item, FromScalar(g), GuardedCompare(FromScalar(g), 0.0, Above))
  }

  /** Entry 6: long-term debt below five times net income, on the rounded ratio. */
  function DebtEntry(f: Fundamentals): (e: Entry)
    ensures f.longTermDebt.None? || f.netIncome.None? ==> Classify(e.passed) == Neutral
    ensures f.longTermDebt.Some? && f.netIncome.Some? ==>
      e.value == SafeRatio(f.longTermDebt.value, f.netIncome.value)
    ensures Classify(e.passed) == Pass <==>
      && f.longTermDebt.Some? && f.netIncome.Some?
      && f.longTermDebt.value.kind == Native && f.netIncome.value.kind == Native
      && f.netIncome.value.x != 0.0
      && Round2(f.longTermDebt.value.x / f.netIncome.value.x) != 0.0
      && Round2(f.longTermDebt.value.x / f.netIncome.value.x) < 5.0
    ensures Classify(e.passed) == Fail <==>
      && f.longTermDebt.Some? && f.netIncome.Some?
      && f.longTermDebt.value.kind == Native && f.netIncome.value.kind == Native
      && f.netIncome.value.x != 0.0
      && Round2(f.longTermDebt.value.x / f.netIncome.value.x) != 0.0
      && Round2(f.longTermDebt.value.x / f.netIncome.value.x) >= 5.0
    ensures ((f.longTermDebt.Some? && f.longTermDebt.value.kind == NumPy) ||
             (f.netIncome.Some? && f.netIncome.value.kind == NumPy)) ==>
      Classify(e.passed) == Neutral
  {
    var item := "LT Debt < 5x Net Income";
    match (f.longTermDebt, f.netIncome)
    case (Some(debt), Some(netIncome)) =>
      var ratio := SafeRatio(debt, netIncome);
      Entry(item, ratio, GuardedCompare(ratio, 5.0, Below))
    case _ => Entry(item, NoneValue, NoneValue)
  }

  /** Where the debt check's boundaries fall for builtin numbers. A zero net
      income or a zero debt is neutral, as is any ratio that rounds to 0.00; a
      ratio of exactly 5 fails; a ratio that stays below 5 after rounding passes,
      including a negative one (a net loss with positive debt). */
  lemma DebtBoundaries(f: Fundamentals, debt: real, netIncome: real)
    requires f.longTermDebt == Some(Scalar(debt, Native))
    requires f.netIncome == Some(Scalar(netIncome, Native))
    ensures netIncome == 0.0 ==> Classify(DebtEntry(f).passed) == Neutral
    ensures debt == 0.0 ==> Classify(DebtEntry(f).passed) == Neutral
    ensures netIncome != 0.0 && -0.005 < debt / netIncome < 0.005 ==>
      Classify(DebtEntry(f).passed) == Neutral
    ensures netIncome != 0.0 && debt / netIncome == 5.0 ==>
      Classify(DebtEntry(f).passed) == Fail
    ensures netIncome != 0.0 && debt / netIncome > 4.995 ==>
      Classify(DebtEntry(f).passed) == Fail
    ensures netIncome != 0.0 && (debt / netIncome < -0.005 || 0.005 < debt / netIncome < 4.995) ==>
      Classify(DebtEntry(f).passed) == Pass
  {
  }

  /** Entries 7, 8, 9 and 11: placeholders for human judgement. */
  function ManualEntry(item: string): (e: Entry)
    ensures Classify(e.passed) == Neutral
    ensures !Truthy(e.passed)
  {
    Entry(item, Text(Warning), NoneValue)
  }

  /** The smallest payment of a non-empty series (`dividends.min()`). */
  function SeqMin(s: seq<real>): (m: real)
    requires |s| > 0
    ensures m in s
    ensures forall i :: 0 <= i < |s| ==> m <= s[i]
  {
    if |s| == 1 then s[0]
    else
      var rest := SeqMin(s[1..]);
      if s[0] <= rest then s[0] else rest
  }

  /** `not dividends.empty and dividends.min() > 0`. The result is always a
      boolean object: the builtin `False` for an empty history, otherwise a
      boolean of the series' scalar kind. It is true exactly when there is at
      least one payment and every payment is positive. */
  function DividendConsistent(dividends: seq<real>, kind: ScalarKind): (c: Value)
    ensures c.Bool?
    ensures c.b <==> |dividends| > 0 && forall i :: 0 <= i < |dividends| ==> dividends[i] > 0.0
    ensures |dividends| == 0 ==> c.kind == Native
    ensures |dividends| > 0 ==> c.kind == kind
  {
    var notEmpty := Bool(|dividends| > 0, Native);
    if !Truthy(notEmpty) then notEmpty
    else Bool(SeqMin(dividends) > 0.0, kind)
  }

  /** Entry 10: dividend history. */
  function DividendEntry(f: Fundamentals): (e: Entry)
    ensures e.value == Text(if Truthy(e.passed) then "Yes" else "No")
    ensures e.passed == DividendConsistent(f.dividends, f.dividendKind)
    ensures Classify(e.passed) == Fail <==>
      || |f.dividends| == 0
      || (f.dividendKind == Native && exists i :: 0 <= i < |f.dividends| && f.dividends[i] <= 0.0)
    ensures Classify(e.passed) == Neutral <==> |f.dividends| > 0 && f.dividendKind == NumPy
    ensures Classify(e.passed) == Pass <==>
      && f.dividendKind == Native && |f.dividends| > 0
      && forall i :: 0 <= i < |f.dividends| ==> f.dividends[i] > 0.0
  {
    var consistent := DividendConsistent(f.dividends, f.dividendKind);
    Entry("Dividend History (No Cuts)", Text(if Truthy(consistent) then "Yes" else "No"), consistent)
  }

  /** The results list in the order the page appends it. */
  function Results(f: Fundamentals): (rs: seq<Entry>)
    ensures |rs| == EntryCount
    ensures forall i :: i in {6, 7, 8, 10} ==> Classify(rs[i].passed) == Neutral
  {
    [ ProfileEntry("Return on Equity > 12%", f.returnOnEquity, 0.12),
      ProfileEntry("Return on Assets > 12%", f.returnOnAssets, 0.12),
      EpsEntry(f),
      ProfileEntry("Net Margin > 20%", f.netMargins, 0.20),
      ProfileEntry("Gross Margin > 40%", f.grossMargins, 0.40),
      DebtEntry(f),
      ManualEntry("Organized Labor (Manual Input)"),
      ManualEntry("Pricing Power Matches Inflation (Manual)"),
      ManualEntry("Return on Retained Capital > 18% (Est.)"),
      DividendEntry(f),
      ManualEntry("Barriers to Entry (Manual Input)") ]
  }
}

=== FILE: outcomes.dfy ===
/**
 The three states the scoreboard shows for a checklist entry (app.py lines 93-99):
 a success mark when `passed is True`, a failure mark when `passed is False`, and a
 warning mark for every other value.
 */
module Outcomes {
  import opened PyValues

  datatype Outcome = Pass | Fail | Neutral

  function Classify(passed: Value): (o: Outcome)
    ensures o == Pass ==> Truthy(passed)
    ensures o == Fail ==> !Truthy(passed)
    // neutral means: not a builtin boolean at all
    ensures o == Neutral <==> !passed.Bool? || passed.kind.NumPy?
  {
    if IsTrue(passed) then Pass
    else if IsFalse(passed) then Fail
    else Neutral
  }
}

=== FILE: py_values.dfy ===
/**
 The handful of Python values the checklist manipulates, with the two pieces of
 Python semantics its decisions depend on: truthiness (which drives the result of
 `a and b`) and identity with the singletons `True` and `False` (which drives the
 scoreboard's `passed is True` / `passed is False` tests).
 */
module PyValues {

  /** Whether a number or a boolean is a Python builtin or a NumPy scalar.
      Values read from the provider's profile dictionary are builtin; values that
      come out of a pandas table or series may be NumPy scalars, and a comparison
      of a NumPy scalar yields a `numpy.bool_`, which is never identical to `True`. */
  datatype ScalarKind = Native | NumPy

  datatype Value =
    | NoneValue
    | Bool(b: bool, kind: ScalarKind)
    | Number(x: real, kind: ScalarKind)
    | Text(s: string)

  /** A number together with the kind of object that carries it. */
  datatype Scalar = Scalar(x: real, kind: ScalarKind)

  function FromScalar(s: Scalar): Value {
    Number(s.x, s.kind)
  }

  /** Python truthiness: `None`, `False`, zero and the empty string are falsy. */
  predicate Truthy(v: Value) {
    match v
    case NoneValue => false
    case Bool(b, _) => b
    case Number(x, _) => x != 0.0
    case Text(s) => s != ""
  }

  /** `v is True`: only the builtin singleton qualifies. */
  predicate IsTrue(v: Value) {
    v == Bool(true, Native)
  }

  /** `v is False`: only the builtin singleton qualifies. */
  predicate IsFalse(v: Value) {
    v == Bool(false, Native)
  }

  /** Kind of the result of arithmetic on two scalars: NumPy wins over builtin. */
  function Promote(a: ScalarKind, b: ScalarKind): ScalarKind
  {
    if a.Native? && b.Native? then Native else NumPy
  }
}

=== FILE: rounding.dfy ===
/**
 Rounding to two decimal places, as `round(x, 2)` does on the ratio in `safe_ratio`.
 The model works on exact reals and rounds to the nearest hundredth, ties to even;
 every property below that a caller relies on is stated with strict inequalities,
 so it does not depend on how ties are broken.
 */
module Rounding {

  /** `r` is a whole number of hundredths. */
  predicate IsHundredths(r: real) {
    (r * 100.0).Floor as real == r * 100.0
  }

  /** The integer nearest to `y`; a tie goes to the even neighbour. */
  function RoundHalfEven(y: real): (n: int)
    ensures y - 0.5 <= n as real <= y + 0.5
    ensures y - y.Floor as real == 0.5 ==> n % 2 == 0
  {
    var f := y.Floor;
    var frac := y - f as real;
    if frac < 0.5 then f
    else if frac > 0.5 then f + 1
    else if f % 2 == 0 then f
    else f + 1
  }

  /** `round(x, 2)`: the nearest multiple of 0.01. */
  function Round2(x: real): (r: real)
    ensures x - 0.005 <= r <= x + 0.005
    ensures IsHundredths(r)
  {
    var y := x * 100.0;
    var n := RoundHalfEven(y);
    var r := n as real / 100.0;
    assert r * 100.0 == n as real;
    assert (n as real).Floor == n;
    assert y - 0.5 <= n as real <= y + 0.5;
    assert x - 0.005 == (y - 0.5) / 100.0 && x + 0.005 == (y + 0.5) / 100.0;
    r
  }

  /** A value that already has at most two decimals is left unchanged. */
  lemma Round2Exact(x: real)
    requires IsHundredths(x)
    ensures Round2(x) == x
  {
  }

  /** Rounding yields zero exactly around zero: strictly inside half a hundredth
      of zero the result is 0, strictly outside it is not. */
  lemma Round2Zero(x: real)
    ensures -0.005 < x < 0.005 ==> Round2(x) == 0.0
    ensures x < -0.005 || x > 0.005 ==> Round2(x) != 0.0
  {
  }
}

=== FILE: scoreboard.dfy ===
/**
 The scoreboard of app.py (lines 86-108): the score counts the entries whose
 `passed` value is the builtin `True`, the total is the length of the results
 list, and the score picks one of three verdict bands.
 */
module Scoreboard {
  import opened PyValues
  import opened Outcomes
  import opened Checklist
  import opened Rounding

  datatype Verdict = StrongCandidate | Watchlist | Avoid

  /** 1 for an entry the scoreboard marks as passed, 0 otherwise. */
  function Point(e: Entry): (p: nat)
    ensures p == 1 <==> Classify(e.passed) == Pass
    ensures p <= 1
  {
    if IsTrue(e.passed) then 1 else 0
  }

  /** Reference count: the number of passed entries in `rs`. */
  function Passes(rs: seq<Entry>): (n: nat)
    ensures n <= |rs|
    ensures n == |rs| <==> forall i :: 0 <= i < |rs| ==> Classify(rs[i].passed) == Pass
  {
    if |rs| == 0 then 0
    else Passes(rs[..|rs| - 1]) + Point(rs[|rs| - 1])
  }

  /** The scoreboard loop: walk the results, add one for each `passed is True`. */
  method Tally(results: seq<Entry>) returns (score: nat, total: nat)
    ensures total == |results|
    ensures score == Passes(results)
    ensures score <= total
  {
    score := 0;
    total := |results|;
    var i := 0;
    while i < |results|
      invariant 0 <= i <= |results|
      invariant score == Passes(results[..i])
    {
      var e := results[i];
      assert results[..i + 1][..i] == results[..i];
      if IsTrue(e.passed) {
        score := score + 1;
      } else if IsFalse(e.passed) {
        // failure mark; the score is unchanged
      } else {
        // warning mark; the score is unchanged
      }
      i := i + 1;
    }
    assert results[..i] == results;
  }

  /** The verdict bands: at least 10 is a strong candidate, at least 7 goes on
      the watchlist, anything lower is to be avoided. */
  function VerdictOf(score: int): (v: Verdict)
    ensures v == StrongCandidate <==> score >= 10
    ensures v == Watchlist <==> 7 <= score < 10
    ensures v == Avoid <==> score < 7
  {
    if score >= 10 then StrongCandidate
    else if score >= 7 then Watchlist
    else Avoid
  }

  /** Position of a verdict on the scale, Avoid lowest. */
  function Rank(v: Verdict): nat {
    match v
    case Avoid => 0
    case Watchlist => 1
    case StrongCandidate => 2
  }

  /** A higher score never yields a worse verdict. */
  lemma VerdictMonotone(a: int, b: int)
    requires a <= b
    ensures Rank(VerdictOf(a)) <= Rank(VerdictOf(b))
  {
  }

  /** Passes distributes over concatenation. */
  lemma {:induction false} PassesAppend(a: seq<Entry>, b: seq<Entry>)
    ensures Passes(a + b) == Passes(a) + Passes(b)
    decreases |b|
  {
    if |b| == 0 {
      assert a + b == a;
    } else {
      var b' := b[..|b| - 1];
      assert (a + b)[..|a + b| - 1] == a + b';
      PassesAppend(a, b');
    }
  }

  /** Passes of a one-entry list is that entry's point. */
  lemma PassesSingle(e: Entry)
    ensures Passes([e]) == Point(e)
  {
    assert [e][..0] == [];
  }

  /** The seven automated checks, in page order: every entry but the manual ones. */
  function AutomatedEntries(f: Fundamentals): seq<Entry> {
    var rs := Results(f);
    rs[..6] + [rs[9]]
  }

  /** An entry that does not pass can be dropped without changing the count. */
  lemma PassesSkip(a: seq<Entry>, e: Entry, b: seq<Entry>)
    requires Point(e) == 0
    ensures Passes(a + [e] + b) == Passes(a + b)
  {
    PassesAppend(a + [e], b);
    PassesAppend(a, [e]);
    PassesSingle(e);
    PassesAppend(a, b);
  }

  /** In an eleven-entry list whose entries 7, 8, 9 and 11 never pass, only
      the other seven can add to the count. */
  lemma {:induction false} PassesWithoutManual(rs: seq<Entry>)
    requires |rs| == 11
    requires Point(rs[6]) == 0 && Point(rs[7]) == 0 && Point(rs[8]) == 0 && Point(rs[10]) == 0
    ensures Passes(rs) == Passes(rs[..6] + [rs[9]])
  {
    var p, d := rs[..6], rs[9];
    assert rs == p + [rs[6]] + [rs[7], rs[8], d, rs[10]];
    PassesSkip(p, rs[6], [rs[7], rs[8], d, rs[10]]);
    assert p + [rs[7], rs[8], d, rs[10]] == p + [rs[7]] + [rs[8], d, rs[10]];
    PassesSkip(p, rs[7], [rs[8], d, rs[10]]);
    assert p + [rs[8], d, rs[10]] == p + [rs[8]] + [d, rs[10]];
    PassesSkip(p, rs[8], [d, rs[10]]);
    assert p + [d, rs[10]] == (p + [d]) + [rs[10]] + [];
    PassesSkip(p + [d], rs[10], []);
    assert p + [d] + [] == p + [d];
  }

  /** The score of the page is the number of automated checks that pass: the
      four manual entries never add to it. */
  lemma ScoreIsAutomatedPasses(f: Fundamentals)
    ensures Passes(Results(f)) == Passes(AutomatedEntries(f))
  {
    var rs := Results(f);
    assert 6 in {6, 7, 8, 10} && 7 in {6, 7, 8, 10} && 8 in {6, 7, 8, 10} && 10 in {6, 7, 8, 10};
    PassesWithoutManual(rs);
  }

  /** The page always shows a total of `EntryCount` (11) and a score of at most 7: only the
      seven automated checks can ever be `True`. */
  lemma ScoreAtMostSeven(f: Fundamentals)
    ensures |Results(f)| == EntryCount
    ensures Passes(Results(f)) <= 7
  {
    ScoreIsAutomatedPasses(f);
  }

  /** The "Strong Candidate" band (score >= 10) can never be shown. */
  lemma StrongCandidateUnreachable(f: Fundamentals)
    ensures VerdictOf(Passes(Results(f))) != StrongCandidate
  {
    ScoreAtMostSeven(f);
  }

  /** "Watchlist" is shown exactly when every automated check passes. */
  lemma WatchlistIffAllAutomatedPass(f: Fundamentals)
    ensures VerdictOf(Passes(Results(f))) == Watchlist <==>
      forall i :: 0 <= i < |AutomatedEntries(f)| ==> Classify(AutomatedEntries(f)[i].passed) == Pass
  {
    ScoreIsAutomatedPasses(f);
  }

  /** "Watchlist" in terms of the fetched data: the four profile ratios are
      present and strictly above 12%, 12%, 20% and 40%; the mean EPS growth is a
      positive builtin number; the builtin rounded debt ratio is non-zero and
      below 5; and the builtin dividend history is non-empty and all positive. */
  lemma WatchlistIffInputs(f: Fundamentals)
    ensures VerdictOf(Passes(Results(f))) == Watchlist <==>
      && f.returnOnEquity.Some? && f.returnOnEquity.value > 0.12
      && f.returnOnAssets.Some? && f.returnOnAssets.value > 0.12
      && f.netMargins.Some? && f.netMargins.value > 0.20
      && f.grossMargins.Some? && f.grossMargins.value > 0.40
      && f.epsGrowth.Some? && f.epsGrowth.value.kind == Native && f.epsGrowth.value.x > 0.0
      && f.longTermDebt.Some? && f.netIncome.Some?
      && f.longTermDebt.value.kind == Native && f.netIncome.value.kind == Native
      && f.netIncome.value.x != 0.0
      && Round2(f.longTermDebt.value.x / f.netIncome.value.x) != 0.0
      && Round2(f.longTermDebt.value.x / f.netIncome.value.x) < 5.0
      && f.dividendKind == Native && |f.dividends| > 0
      && (forall i :: 0 <= i < |f.dividends| ==> f.dividends[i] > 0.0)
  {
    WatchlistIffAllAutomatedPass(f);
    var rs := Results(f);
    var au := AutomatedEntries(f);
    assert au == [rs[0], rs[1], rs[2], rs[3], rs[4], rs[5], rs[9]];
    var allSeven :=
      && Classify(rs[0].passed) == Pass && Classify(rs[1].passed) == Pass
      && Classify(rs[2].passed) == Pass && Classify(rs[3].passed) == Pass
      && Classify(rs[4].passed) == Pass && Classify(rs[5].passed) == Pass
      && Classify(rs[9].passed) == Pass;
    if allSeven {
      forall i | 0 <= i < |au| ensures Classify(au[i].passed) == Pass {
        if i < 6 { assert au[i] == rs[i]; } else { assert au[i] == rs[9]; }
      }
    }
    if forall i :: 0 <= i < |au| ==> Classify(au[i].passed) == Pass {
      assert au[0] == rs[0] && au[1] == rs[1] && au[2] == rs[2] && au[3] == rs[3];
      assert au[4] == rs[4] && au[5] == rs[5] && au[6] == rs[9];
    }
  }

  /** When pandas hands back NumPy scalars, the EPS, debt and dividend checks
      produce `numpy.bool_` results that are never `is True`, so at most the
      four profile ratios score and the verdict is always "Avoid". */
  lemma NumPyScalarsAlwaysAvoid(f: Fundamentals)
    requires f.epsGrowth.Some? ==> f.epsGrowth.value.kind == NumPy
    requires f.longTermDebt.Some? ==> f.longTermDebt.value.kind == NumPy
    requires f.dividendKind == NumPy
    ensures Passes(Results(f)) <= 4
    ensures VerdictOf(Passes(Results(f))) == Avoid
  {
    ScoreIsAutomatedPasses(f);
    var au := AutomatedEntries(f);
    var kept := [au[0], au[1], au[3], au[4]];
    assert au == [au[0], au[1]] + [au[2]] + [au[3], au[4], au[5], au[6]];
    PassesSkip([au[0], au[1]], au[2], [au[3], au[4], au[5], au[6]]);
    assert [au[0], au[1]] + [au[3], au[4], au[5], au[6]] == kept + [au[5]] + [au[6]];
    PassesSkip(kept, au[5], [au[6]]);
    assert kept + [au[6]] == kept + [au[6]] + [];
    PassesSkip(kept, au[6], []);
    assert kept + [] == kept;
  }
}

=== FILE: wrappers.dfy ===
/** The optional-value type used for data the market-data provider may not supply. */
module Wrappers {

  /** `None` stands for a missing attribute or line item; `Some(v)` carries the value. */
  datatype Option<+T> = None | Some(value: T)
}
